=== FILE: README.md ===
# Paced producer/consumer over a ring buffer — Dafny model

This project models the core of `perf_test_ringbufer.py`, a benchmark harness that
pushes fixed-size frames through a shared ring buffer at a target rate:

- **`sleep_times`** — a drift-correcting pacer. It yields `0` first. Then, at every
  clock reading before the deadline `start + duration_seconds`, it yields
  `max(0, 1/slots_per_second - (now - last))`, where `last` is the previous reading.
- **`fill_first`** — the producer. It makes one paced write attempt per tick. A refused
  write (`WaitingForReaderError`) is reported and dropped. At the end it closes the ring.
- **`second_top`** — the consumer. It polls the ring and counts frames. On "no data
  yet" it backs off for half a frame duration without counting. It returns at "writer
  finished".

The wall clock is injected. `start` is the reading the generator takes first, and
`readings` are the readings its loop takes, in order. The ring buffer is an oracle:
a sequence of the answers `try_write` and `try_read` give. A finite trace may end
before the run does. The pacer then reports `ended == false`, and the consumer reports
`returned == false`. Lemmas show, for all three loops, that a longer trace only extends
what was observed, and that a finished run is final.

Python's `1 / slots_per_second` raises `ZeroDivisionError` when the rate is 0. This
happens in the pacer (before anything is yielded, so the producer writes nothing and
never closes) and at the top of the consumer. It is modelled as the `DivisionByZero`
case of `Failures.Result`, not excluded by a precondition. Python's `time.sleep` raises
`ValueError` for a negative length. The producer only sleeps for positive delays, so it
never raises this, but the consumer's back-off (line 78) is negative for a negative rate.
This is the `NegativeSleep` case of `Failures.Result`. Numbers are Dafny `real`s.
The command-line integers `duration_seconds` and `slots_per_second` are `int`s.

Modules: `Failures` (the result type), `Traces` (first-index and ordering vocabulary),
`Pacer`, `Producer`, `Consumer`.

Two points of the code the model keeps as written:
- The consumer stops on the first `WriterFinishedError` (line 80). When the library
  raises it is outside the model.
- The code does not check that duration and rate are positive (lines 16-17 only parse
  integers). The model accepts any integers. A zero rate is the division error above.
  On a clock that never runs backwards, a negative rate makes every pacer delay 0, so
  the producer reports every tick after the first as running behind and never sleeps.
  A backward clock step of more than `1/|rate|` seconds gives a positive delay, and the
  producer sleeps for it. The consumer raises `ValueError` at its
  first "no data yet" answer before "writer finished", and does not return.

## Model

| member | source | states |
|---|---|---|
| Pacer.FrameDuration | perf_test_ringbufer.py:23 | the frame duration is the reciprocal of the rate (positive for a positive rate); a zero rate raises the division error |
| Pacer.Delay | perf_test_ringbufer.py:33-41 | a yielded delay is never negative; it is 0 exactly when the step already used up the frame duration, and otherwise it is the part of the frame duration that is left; on a forward-running clock it never exceeds the frame duration |
| Pacer.Steps | perf_test_ringbufer.py:28-43 | the loop yields one non-negative delay per reading before the first reading at or past the deadline; it has returned exactly when the trace holds such a reading |
| Pacer.SleepTimes | perf_test_ringbufer.py:20-43 | the first delay is 0; all delays are non-negative; there are 1 + (readings before the deadline) of them; the generator returns exactly when some reading reaches `start + duration_seconds`; a zero rate raises |
| Pacer.SleepTimesMeasuresAgainstPreviousReading | perf_test_ringbufer.py:25-43 | delay `j` (for `j >= 1`) comes from reading `j-1`, which was before the deadline; it is the clamped frame duration minus the time since the previous reading (`start` for the first step) |
| Pacer.SleepTimesStopsAtDeadline | perf_test_ringbufer.py:29-31 | once a reading reaches the deadline, nothing is yielded for it, and readings after it change nothing |
| Pacer.SleepTimesIsLazy | perf_test_ringbufer.py:26-43 | watching the clock for longer only extends the delays already yielded |
| Pacer.StepsWithinFrame | perf_test_ringbufer.py:28-43 | the loop's steps, on a clock that never runs backwards, each yield at most the frame duration |
| Pacer.DelaysWithinFrame | perf_test_ringbufer.py:33-41 | if the clock never runs backwards, every delay is at most `1/slots_per_second` |
| Pacer.NegativeRateNeverWaits | perf_test_ringbufer.py:23-41 | with a negative rate on a clock that never runs backwards, every yielded delay is 0 |
| Pacer.BackwardClockWaitsOnNegativeRate | perf_test_ringbufer.py:23-43 | with rate -1, start 5 and one reading at 3, the generator yields 0 and then 1: a backward clock step gives a positive delay even for a negative rate |
| Pacer.StallChangesOneDelay | perf_test_ringbufer.py:33-43 | drift correction: if the clock jumps forward by a constant from one reading on, only the delay of the step containing the jump changes, and later delays are not shortened to catch up |
| Producer.Ticks | perf_test_ringbufer.py:49-60 | the ticks never close the ring; every event belongs to one of the yielded ticks; every sleep lasts exactly its tick's non-zero delay |
| Producer.FillFirst | perf_test_ringbufer.py:46-66 | a zero rate raises before anything happens; the ring is closed exactly when the pacer returned, exactly once, as the last event, so no write follows it; every sleep is positive |
| Producer.FillFirstReports | perf_test_ringbufer.py:49-60 | each kind of event is logged exactly at the ticks the rule names, once per tick, in tick order: a write attempt every tick; "running behind" when the delay is 0 and the tick is not the first; a sleep when the delay is not 0; "pending reader" when the ring refused that tick's write |
| Producer.FillFirstWritesEachTickOnce | perf_test_ringbufer.py:49-60 | write attempts are exactly ticks 0, 1, …, n-1 for n yielded delays: a refused write neither ends the loop nor is retried |
| Producer.FillFirstInLoopOrder | perf_test_ringbufer.py:49-65 | the log follows the loop: all of tick i before tick i+1; within a tick the "running behind" report or the sleep, then the write, then the "pending reader" report; the close after everything |
| Producer.FillFirstIsLazy | perf_test_ringbufer.py:47-65 | watching the clock for longer only extends the producer's log; once the ring is closed, the log no longer changes |
| Producer.FillFirstBehindOnOverrun | perf_test_ringbufer.py:33-52 | "running behind" is reported for tick `j` exactly when `j >= 1` and the clock step before it took at least the frame duration |
| Producer.FillFirstNeverSleepsOnNegativeRate | perf_test_ringbufer.py:49-54 | with a negative rate on a clock that never runs backwards, the producer never sleeps |
| Producer.BackwardClockSleepsOnNegativeRate | perf_test_ringbufer.py:49-54 | with rate -1, start 5 and one reading at 3, tick 1 sleeps for 1 second |
| Consumer.Poll | perf_test_ringbufer.py:73-86 | a non-negative back-off never raises, and a raise needs a negative back-off and a "no data yet" answer; unless it raised, the loop returns exactly when some answer is "writer finished", counts at most one frame and takes at most one back-off per answer, and every back-off has the same length |
| Consumer.SecondTop | perf_test_ringbufer.py:69-86 | exactly a zero rate raises the division error; a positive rate never raises, and a negative-sleep error needs a negative rate; unless it raised, the consumer returns exactly when the reader is told "writer finished", never counts more frames than answers, and each back-off sleeps half the frame duration |
| Consumer.SecondTopRaisesOnNegativeBackoff | perf_test_ringbufer.py:70-79 | the back-off sleep raises exactly when the rate is negative and the reader is told "no data yet" before any "writer finished" |
| Consumer.SecondTopCountsReadsBeforeFinish | perf_test_ringbufer.py:73-86 | unless the loop raised, it has returned exactly when some answer is "writer finished"; the frames counted are the frame answers before the first one, and the back-offs are the "no data yet" answers before it, which are not counted as frames |
| Consumer.SecondTopIsLazy | perf_test_ringbufer.py:73-86 | polling for longer never lowers the frames counted or the back-offs taken, and an error once raised stays raised |
| Consumer.SecondTopStopsAtFinish | perf_test_ringbufer.py:80-82 | answers after the first "writer finished" are never asked for, whether the loop returned there or raised before it |

## Left out

- Argument parsing, `main`, `get_buffer` and process spawning and joining (lines 12-17, 97-131): plumbing and OS concurrency.
- The ring buffer itself (`RingBuffer`, `new_reader`, `try_write`, `try_read`, `close`): its source is not part of this model. Only the answers its calls give are modelled, as oracle sequences. Slot storage, cursors and overwrite rules are not modelled.
- Exceptions from `try_write` or `try_read` other than the three named ones, and `None` flags from a missing option: the model assumes the library and the flags behave.
- Producer.FillFirst: has no slot size. A negative `--slot-bytes` makes `os.urandom` raise `ValueError` at line 56, after tick 0's pacing and before its write. The model assumes a non-negative size, because frame contents are not modelled.
- `time.time`, `time.sleep` and `os.urandom`: the clock is an injected trace, and a sleep is recorded with its length but does not move the clock. Frame contents are not modelled.
- Logging: debug lines and the progress reports every 100 frames (lines 35-36, 62-63, 85-86) are left out. The "running behind" and "pending reader" error reports are modelled as events.
- Floating point: `1 / slots_per_second` and the subtractions are exact `real` arithmetic, so rounding is not modelled.
- Rate convergence and tick-count bounds such as about `duration * rate` ticks: these need a model of how sleeping moves the clock, which the code does not state.
- Producer.FillFirst: needs one ring answer for every tick the clock trace can produce (`|writes| > |readings|`), because the oracle stands for a ring that always answers.

=== FILE: consumer.dfy ===
/** The consumer loop `second_top` of perf_test_ringbufer.py.

    The ring buffer is an oracle: `answers[i]` is how the `i`-th call of `try_read`
    answers. A finite oracle trace may end before the writer finishes; the loop is
    then still polling (`returned == false`). */
module Consumer {
  import opened Failures
  import opened Traces
  import Pacer

  /** How `try_read` answered: a frame, `WaitingForWriterError` or `WriterFinishedError`. */
  datatype ReadOutcome = Frame | WaitingForWriter | WriterFinished

  /** The loop's state: frames counted, back-off sleeps taken, the length of each
      back-off sleep in seconds, and whether the loop returned. */
  datatype Drain = Drain(framesSeen: nat, waits: nat, backoff: real, returned: bool)

  /** The answer that ends the loop: `WriterFinishedError`. */
  const IsFinish: ReadOutcome -> bool := o => o == WriterFinished

  /** The `while True` loop from a state that has counted `seen` frames and slept `waits`
      times. Every back-off sleeps `backoff` seconds; `time.sleep` raises on a negative
      length, so with a negative `backoff` the first "no data yet" ends the loop in an error. */
  function Poll(backoff: real, seen: nat, waits: nat, answers: seq<ReadOutcome>): (r: Result<Drain>)
    ensures !r.DivisionByZero?
    ensures r.NegativeSleep? ==> backoff < 0.0 && WaitingForWriter in answers
    ensures backoff >= 0.0 ==> r.Ok?
    ensures r.Ok? ==> (r.value.returned <==> WriterFinished in answers)
    ensures r.Ok? ==> seen <= r.value.framesSeen && r.value.framesSeen <= seen + |answers|
    ensures r.Ok? ==> waits <= r.value.waits && r.value.waits <= waits + |answers|
    ensures r.Ok? ==> r.value.backoff == backoff
    decreases |answers|
  {
    if |answers| == 0 then Ok(Drain(seen, waits, backoff, false))
    else
      match answers[0]
      case WaitingForWriter =>
        if backoff < 0.0 then NegativeSleep else Poll(backoff, seen, waits + 1, answers[1..])
      case WriterFinished => Ok(Drain(seen, waits, backoff, true))
      case Frame => Poll(backoff, seen + 1, waits, answers[1..])
  }

  /** `second_top` over the reader's answers; `1 / slots_per_second` is computed first,
      and each back-off sleeps half of it. */
  function SecondTop(rate: int, answers: seq<ReadOutcome>): (r: Result<Drain>)
    ensures r.DivisionByZero? <==> rate == 0
    ensures r.NegativeSleep? ==> rate < 0 && WaitingForWriter in answers
    ensures rate > 0 ==> r.Ok?
    ensures r.Ok? ==> (r.value.returned <==> WriterFinished in answers)
    ensures r.Ok? ==> r.value.framesSeen <= |answers|
    ensures r.Ok? ==> r.value.backoff * 2.0 * (rate as real) == 1.0
  {
    match Pacer.FrameDuration(rate)
    case Ok(frame) => Poll(frame / 2.0, 0, 0, answers)
    case _ => DivisionByZero
  }

  /** The number of times `o` occurs in `s`. */
  function Count(s: seq<ReadOutcome>, o: ReadOutcome): nat
  {
    multiset(s)[o]
  }

  /** Counting over a sequence with one more element in front. */
  lemma CountCons(x: ReadOutcome, s: seq<ReadOutcome>, o: ReadOutcome)
    ensures Count([x] + s, o) == (if x == o then 1 else 0) + Count(s, o)
  {
  }

  /** The loop raises at the first "no data yet" before any "writer finished" when its
      back-off is negative; otherwise it counts the frames and back-offs among the answers
      before the first "writer finished". */
  lemma {:induction false} PollCounts(backoff: real, seen: nat, waits: nat, answers: seq<ReadOutcome>)
    ensures Poll(backoff, seen, waits, answers).NegativeSleep?
        <==> backoff < 0.0 && WaitingForWriter in answers[..FirstWhere(answers, IsFinish)]
    ensures Poll(backoff, seen, waits, answers).Ok? ==>
              Poll(backoff, seen, waits, answers).value.framesSeen
              == seen + Count(answers[..FirstWhere(answers, IsFinish)], Frame)
    ensures Poll(backoff, seen, waits, answers).Ok? ==>
              Poll(backoff, seen, waits, answers).value.waits
              == waits + Count(answers[..FirstWhere(answers, IsFinish)], WaitingForWriter)
    decreases |answers|
  {
    var k := FirstWhere(answers, IsFinish);
    if |answers| == 0 || answers[0] == WriterFinished {
      assert answers[..k] == [];
    } else {
      var rest := answers[1..];
      assert k == 1 + FirstWhere(rest, IsFinish);
      assert answers[..k] == [answers[0]] + rest[..k - 1];
      CountCons(answers[0], rest[..k - 1], Frame);
      CountCons(answers[0], rest[..k - 1], WaitingForWriter);
      if answers[0] == Frame {
        PollCounts(backoff, seen + 1, waits, rest);
      } else if backoff >= 0.0 {
        PollCounts(backoff, seen, waits + 1, rest);
      }
    }
  }

  /** With a negative rate the frame duration is negative, and the loop raises exactly when
      the reader is told "no data yet" before it is told "writer finished". */
  lemma SecondTopRaisesOnNegativeBackoff(rate: int, answers: seq<ReadOutcome>)
    ensures SecondTop(rate, answers).NegativeSleep?
        <==> rate < 0 && WaitingForWriter in answers[..FirstWhere(answers, IsFinish)]
  {
    if rate != 0 {
      PollCounts(Pacer.FrameDuration(rate).value / 2.0, 0, 0, answers);
    }
  }

  /** Unless it raised, the loop returns at the first "writer finished" answer; until then
      it counts every frame read and backs off, without counting, on every "no data yet".
      The proof is one call of `PollCounts`, not an induction; the attribute keeps the
      solver from searching for one. */
  lemma {:induction false} SecondTopCountsReadsBeforeFinish(rate: int, answers: seq<ReadOutcome>)
    ensures SecondTop(rate, answers).Ok? ==>
              SecondTop(rate, answers).value.framesSeen
              == Count(answers[..FirstWhere(answers, IsFinish)], Frame)
    ensures SecondTop(rate, answers).Ok? ==>
              SecondTop(rate, answers).value.waits
              == Count(answers[..FirstWhere(answers, IsFinish)], WaitingForWriter)
    ensures SecondTop(rate, answers).Ok? ==>
              (SecondTop(rate, answers).value.returned <==> FirstWhere(answers, IsFinish) < |answers|)
  {
    if rate != 0 {
      PollCounts(Pacer.FrameDuration(rate).value / 2.0, 0, 0, answers);
    }
  }

  /** More answers never lower the counts of a loop that keeps running; once the loop has
      returned or raised, they change nothing. */
  lemma {:induction false} PollExtend(backoff: real, seen: nat, waits: nat, answers: seq<ReadOutcome>, more: seq<ReadOutcome>)
    ensures Poll(backoff, seen, waits, answers).Ok? && Poll(backoff, seen, waits, answers + more).Ok? ==>
              Poll(backoff, seen, waits, answers).value.framesSeen
              <= Poll(backoff, seen, waits, answers + more).value.framesSeen
    ensures Poll(backoff, seen, waits, answers).Ok? && Poll(backoff, seen, waits, answers + more).Ok? ==>
              Poll(backoff, seen, waits, answers).value.waits
              <= Poll(backoff, seen, waits, answers + more).value.waits
    ensures !Poll(backoff, seen, waits, answers).Ok? || Poll(backoff, seen, waits, answers).value.returned
        ==> Poll(backoff, seen, waits, answers + more) == Poll(backoff, seen, waits, answers)
    decreases |answers|
  {
    if |answers| == 0 {
      assert answers + more == more;
    } else {
      assert (answers + more)[0] == answers[0];
      if answers[0] == Frame || (answers[0] == WaitingForWriter && backoff >= 0.0) {
        assert (answers + more)[1..] == answers[1..] + more;
        PollExtend(backoff, if answers[0] == Frame then seen + 1 else seen,
                   if answers[0] == Frame then waits else waits + 1, answers[1..], more);
      }
    }
  }

  /** Nothing the reader would be told after "writer finished" is ever asked for. */
  lemma SecondTopStopsAtFinish(rate: int, answers: seq<ReadOutcome>, more: seq<ReadOutcome>)
    requires WriterFinished in answers
    ensures SecondTop(rate, answers + more) == SecondTop(rate, answers)
  {
    if rate != 0 {
      PollExtend(Pacer.FrameDuration(rate).value / 2.0, 0, 0, answers, more);
    }
  }

  /** Polling for longer never lowers the frames counted or the back-offs taken, and an
      error, once raised, stays raised. */
  lemma SecondTopIsLazy(rate: int, answers: seq<ReadOutcome>, more: seq<ReadOutcome>)
    ensures SecondTop(rate, answers).NegativeSleep? ==> SecondTop(rate, answers + more).NegativeSleep?
    ensures SecondTop(rate, answers).Ok? && SecondTop(rate, answers + more).Ok? ==>
              && SecondTop(rate, answers).value.framesSeen <= SecondTop(rate, answers + more).value.framesSeen
              && SecondTop(rate, answers).value.waits <= SecondTop(rate, answers + more).value.waits
  {
    if rate != 0 {
      PollExtend(Pacer.FrameDuration(rate).value / 2.0, 0, 0, answers, more);
    }
  }
}

=== FILE: failures.dfy ===
/** The failures the modelled code raises on its own: Python's ZeroDivisionError from
    `1 / slots_per_second` when the rate is 0, and the ValueError `time.sleep` raises
    when asked to sleep a negative number of seconds. */
module Failures {

  /** Either the value a computation produced, or the exception it raised. */
  datatype Result<+T> = Ok(value: T) | DivisionByZero | NegativeSleep
}

=== FILE: pacer.dfy ===
/** The drift-correcting pacer `sleep_times` of perf_test_ringbufer.py.

    The wall clock is injected: `start` is the reading taken when the generator
    starts, and `readings` are the readings its loop takes, one per step, in order.
    A finite trace may stop before any reading reaches the deadline; the run then
    reports `ended == false`, meaning the generator would still be waiting for its
    next clock reading. */
module Pacer {
  import opened Failures
  import opened Traces

  /** The delays the generator yielded, and whether it returned (reached its deadline). */
  datatype Run = Run(delays: seq<real>, ended: bool)

  /** `1 / slots_per_second`: the target interval between two frames. */
  function FrameDuration(rate: int): (r: Result<real>)
    ensures r.DivisionByZero? <==> rate == 0
    ensures r.Ok? <==> rate != 0
    ensures r.Ok? ==> r.value * (rate as real) == 1.0
    ensures r.Ok? && rate > 0 ==> r.value > 0.0
  {
    if rate == 0 then DivisionByZero else Ok(1.0 / (rate as real))
  }

  /** `start + duration_seconds`: the first clock reading that ends the run. */
  function Deadline(start: real, duration: int): real
  {
    start + duration as real
  }

  /** The loop's exit test `now >= end`, as a predicate over readings. */
  function AtOrPast(end: real): real -> bool
  {
    now => now >= end
  }

  /** The delay yielded for the step that read `now`, the previous step having read `last`. */
  function Delay(frame: real, last: real, now: real): (d: real)
    ensures d >= 0.0
    ensures d == 0.0 <==> frame - (now - last) <= 0.0
    ensures d != 0.0 ==> d == frame - (now - last)
    ensures last <= now && 0.0 <= frame ==> d <= frame
  {
    var next := frame - (now - last);
    if next <= 0.0 then 0.0 else next
  }

  /** The generator's `while True` loop, from a state whose previous reading is `last`. */
  function Steps(frame: real, end: real, last: real, readings: seq<real>): (r: Run)
    ensures |r.delays| == FirstWhere(readings, AtOrPast(end))
    ensures r.ended <==> |r.delays| < |readings|
    ensures forall j :: 0 <= j < |r.delays| ==> r.delays[j] >= 0.0
    decreases |readings|
  {
    if |readings| == 0 then Run([], false)
    else if readings[0] >= end then Run([], true)
    else
      var rest := Steps(frame, end, readings[0], readings[1..]);
      Run([Delay(frame, last, readings[0])] + rest.delays, rest.ended)
  }

  /** `sleep_times(duration_seconds, slots_per_second)` observed over a clock trace. */
  function SleepTimes(rate: int, duration: int, start: real, readings: seq<real>): (r: Result<Run>)
    ensures r.DivisionByZero? <==> rate == 0
    ensures r.Ok? <==> rate != 0
    ensures r.Ok? ==> |r.value.delays| == 1 + FirstWhere(readings, AtOrPast(Deadline(start, duration)))
    ensures r.Ok? ==> r.value.delays[0] == 0.0
    ensures r.Ok? ==> forall j :: 0 <= j < |r.value.delays| ==> r.value.delays[j] >= 0.0
    ensures r.Ok? ==> (r.value.ended <==> exists j :: 0 <= j < |readings| && readings[j] >= Deadline(start, duration))
  {
    match FrameDuration(rate)
    case Ok(frame) =>
      var rest := Steps(frame, Deadline(start, duration), start, readings);
      Ok(Run([0.0] + rest.delays, rest.ended))
    case _ => DivisionByZero
  }

  /** The reading loop step `j` measures its elapsed time against. */
  function Previous(start: real, readings: seq<real>, j: nat): real
    requires j < |readings|
  {
    if j == 0 then start else readings[j - 1]
  }

  /** Loop step `j` yields the delay of reading `j`, measured from reading `j - 1` (or `last`). */
  lemma {:induction false} StepsMeasureAgainstPrevious(frame: real, end: real, last: real, readings: seq<real>, j: nat)
    requires j < |Steps(frame, end, last, readings).delays|
    ensures j < |readings| && readings[j] < end
    ensures Steps(frame, end, last, readings).delays[j]
         == Delay(frame, if j == 0 then last else readings[j - 1], readings[j])
    decreases j
  {
    if j > 0 {
      StepsMeasureAgainstPrevious(frame, end, readings[0], readings[1..], j - 1);
    }
  }

  /** Every delay after the first is the frame duration minus the time the step took,
      measured from the previous reading (or from `start` for the first step). */
  lemma SleepTimesMeasuresAgainstPreviousReading(rate: int, duration: int, start: real, readings: seq<real>, j: nat)
    requires rate != 0
    requires 1 <= j < |SleepTimes(rate, duration, start, readings).value.delays|
    ensures j - 1 < |readings| && readings[j - 1] < Deadline(start, duration)
    ensures SleepTimes(rate, duration, start, readings).value.delays[j]
         == Delay(FrameDuration(rate).value, Previous(start, readings, j - 1), readings[j - 1])
  {
    StepsMeasureAgainstPrevious(FrameDuration(rate).value, Deadline(start, duration), start, readings, j - 1);
  }

  /** Feeding the generator more readings never changes what it already yielded; once it
      has returned, later readings are never taken. */
  lemma {:induction false} StepsExtend(frame: real, end: real, last: real, readings: seq<real>, more: seq<real>)
    ensures Steps(frame, end, last, readings).delays <= Steps(frame, end, last, readings + more).delays
    ensures Steps(frame, end, last, readings).ended
        ==> Steps(frame, end, last, readings + more) == Steps(frame, end, last, readings)
    decreases |readings|
  {
    if |readings| > 0 {
      assert (readings + more)[0] == readings[0];
      if readings[0] < end {
        assert (readings + more)[1..] == readings[1..] + more;
        StepsExtend(frame, end, readings[0], readings[1..], more);
      }
    }
  }

  /** The run ends at the first reading at or past the deadline: nothing is yielded for
      that reading, and readings after it are never taken. */
  lemma SleepTimesStopsAtDeadline(rate: int, duration: int, start: real, readings: seq<real>, more: seq<real>)
    requires rate != 0
    requires SleepTimes(rate, duration, start, readings).value.ended
    ensures SleepTimes(rate, duration, start, readings + more) == SleepTimes(rate, duration, start, readings)
  {
    StepsExtend(FrameDuration(rate).value, Deadline(start, duration), start, readings, more);
  }

  /** The generator is lazy: observing the clock for longer only extends the delays seen so far. */
  lemma SleepTimesIsLazy(rate: int, duration: int, start: real, readings: seq<real>, more: seq<real>)
    requires rate != 0
    ensures SleepTimes(rate, duration, start, readings).value.delays
         <= SleepTimes(rate, duration, start, readings + more).value.delays
  {
    StepsExtend(FrameDuration(rate).value, Deadline(start, duration), start, readings, more);
  }

  /** The clock never runs backwards over the trace. */
  predicate ClockMonotone(start: real, readings: seq<real>)
  {
    && (|readings| > 0 ==> start <= readings[0])
    && forall i, j :: 0 <= i < j < |readings| ==> readings[i] <= readings[j]
  }

  /** On a forward-running clock, no loop step yields more than the frame duration. */
  lemma {:induction false} StepsWithinFrame(frame: real, end: real, last: real, readings: seq<real>)
    requires 0.0 <= frame
    requires ClockMonotone(last, readings)
    ensures forall j :: 0 <= j < |Steps(frame, end, last, readings).delays|
              ==> Steps(frame, end, last, readings).delays[j] <= frame
    decreases |readings|
  {
    if |readings| > 0 && readings[0] < end {
      StepsWithinFrame(frame, end, readings[0], readings[1..]);
    }
  }

  /** On a clock that never runs backwards, no delay exceeds the frame duration. */
  lemma DelaysWithinFrame(rate: int, duration: int, start: real, readings: seq<real>)
    requires rate > 0
    requires ClockMonotone(start, readings)
    ensures forall j :: 0 <= j < |SleepTimes(rate, duration, start, readings).value.delays|
              ==> SleepTimes(rate, duration, start, readings).value.delays[j] <= FrameDuration(rate).value
  {
    StepsWithinFrame(FrameDuration(rate).value, Deadline(start, duration), start, readings);
  }

  /** With a negative frame duration, a loop step on a forward-running clock never has
      time left over, so it yields 0. */
  lemma {:induction false} StepsIdleOnNegativeFrame(frame: real, end: real, last: real, readings: seq<real>)
    requires frame < 0.0
    requires ClockMonotone(last, readings)
    ensures forall j :: 0 <= j < |Steps(frame, end, last, readings).delays|
              ==> Steps(frame, end, last, readings).delays[j] == 0.0
    decreases |readings|
  {
    if |readings| > 0 && readings[0] < end {
      StepsIdleOnNegativeFrame(frame, end, readings[0], readings[1..]);
    }
  }

  /** A negative rate gives a negative frame duration; on a clock that never runs
      backwards every delay is then 0. */
  lemma NegativeRateNeverWaits(rate: int, duration: int, start: real, readings: seq<real>)
    requires rate < 0
    requires ClockMonotone(start, readings)
    ensures forall j :: 0 <= j < |SleepTimes(rate, duration, start, readings).value.delays|
              ==> SleepTimes(rate, duration, start, readings).value.delays[j] == 0.0
  {
    var frame := FrameDuration(rate).value;
    assert frame < 0.0;
    StepsIdleOnNegativeFrame(frame, Deadline(start, duration), start, readings);
  }

  /** Without a forward-running clock a negative rate can still give a delay: with a frame
      of -1 second, a reading two seconds before `start` leaves a delay of 1 second. */
  lemma BackwardClockWaitsOnNegativeRate()
    ensures SleepTimes(-1, 10, 5.0, [3.0]) == Ok(Run([0.0, 1.0], false))
  {
    assert [3.0][1..] == [];
    assert Steps(-1.0, 15.0, 5.0, [3.0]) == Run([1.0], false);
    assert SleepTimes(-1, 10, 5.0, [3.0]).value == Run([0.0, 1.0], false);
  }

  /** Drift correction: if the clock jumps forward by `c` from reading `m` on (one long
      step), only the delay of the step that contains the jump changes; no later delay
      is shortened to catch up, as a fixed schedule would. */
  lemma StallChangesOneDelay(rate: int, duration: int, start: real, a: seq<real>, b: seq<real>, m: nat, c: real, j: nat)
    requires rate != 0
    requires |b| == |a|
    requires forall i :: 0 <= i < |a| ==> b[i] == if i < m then a[i] else a[i] + c
    requires 1 <= j < |SleepTimes(rate, duration, start, a).value.delays|
    requires j < |SleepTimes(rate, duration, start, b).value.delays|
    requires j != m + 1
    ensures SleepTimes(rate, duration, start, a).value.delays[j] == SleepTimes(rate, duration, start, b).value.delays[j]
  {
    SleepTimesMeasuresAgainstPreviousReading(rate, duration, start, a, j);
    SleepTimesMeasuresAgainstPreviousReading(rate, duration, start, b, j);
  }
}

=== FILE: producer.dfy ===
/** The producer loop `fill_first` of perf_test_ringbufer.py.

    The ring buffer is an oracle: `writes[i]` is how `try_write` answers the write
    attempt of tick `i`. What the loop does is recorded as a log of events. */
module Producer {
  import opened Failures
  import opened Traces
  import Pacer

  /** How `try_write` answered: accepted, or raised `WaitingForReaderError`. */
  datatype WriteOutcome = Written | WaitingForReader

  /** What the producer does, in order. */
  datatype Event =
    | RunningBehind(tick: nat)            // the error logged when a tick has no time left
    | Sleep(tick: nat, seconds: real)     // the paced sleep before the write
    | TryWrite(tick: nat)                 // the write attempt
    | PendingReader(tick: nat)            // the error logged when the reader lags behind
    | Close                               // closing the ring

  /** The per-tick kinds of event. */
  datatype Kind = Behind | Slept | Attempted | Rejected

  /** `e` is an event of kind `k`. */
  predicate Is(e: Event, k: Kind)
  {
    match k
    case Behind => e.RunningBehind?
    case Slept => e.Sleep?
    case Attempted => e.TryWrite?
    case Rejected => e.PendingReader?
  }

  /** The ticks of the events of kind `k` in `es`, in log order. */
  function Tagged(es: seq<Event>, k: Kind): seq<nat>
  {
    if |es| == 0 then []
    else
      var e := es[|es| - 1];
      Tagged(es[..|es| - 1], k) + (if Is(e, k) then [e.tick] else [])
  }

  /** Projecting a log onto one kind of event distributes over concatenation. */
  lemma {:induction false} TaggedConcat(a: seq<Event>, b: seq<Event>, k: Kind)
    ensures Tagged(a + b, k) == Tagged(a, k) + Tagged(b, k)
    decreases |b|
  {
    if |b| == 0 {
      assert a + b == a;
    } else {
      assert (a + b)[..|a + b| - 1] == a + b[..|b| - 1];
      assert (a + b)[|a + b| - 1] == b[|b| - 1];
      TaggedConcat(a, b[..|b| - 1], k);
    }
  }

  /** Appending a log whose projection is known extends the projection by it. */
  lemma TaggedAppend(a: seq<Event>, b: seq<Event>, k: Kind, tail: seq<nat>)
    requires Tagged(b, k) == tail
    ensures Tagged(a + b, k) == Tagged(a, k) + tail
  {
    TaggedConcat(a, b, k);
  }

  /** What tick `i` does before writing: report running behind, or sleep the delay. */
  function Pace(i: nat, delay: real): seq<Event>
  {
    if delay == 0.0 then (if i > 0 then [RunningBehind(i)] else []) else [Sleep(i, delay)]
  }

  /** What tick `i` does after a write the ring answered with `outcome`. */
  function Report(i: nat, outcome: WriteOutcome): seq<Event>
  {
    if outcome == WaitingForReader then [PendingReader(i)] else []
  }

  /** One iteration of the `for` loop: tick `i` with yielded delay `delay`. */
  function TickEvents(i: nat, delay: real, outcome: WriteOutcome): seq<Event>
  {
    Pace(i, delay) + [TryWrite(i)] + Report(i, outcome)
  }

  /** The first `n` iterations of the `for` loop. */
  function Ticks(delays: seq<real>, writes: seq<WriteOutcome>, n: nat): (es: seq<Event>)
    requires n <= |delays| && n <= |writes|
    ensures Close !in es
    ensures forall e :: e in es ==> !e.Close? && e.tick < n
    ensures forall e :: e in es && e.Sleep? ==> e.tick < n && e.seconds == delays[e.tick] && e.seconds != 0.0
  {
    if n == 0 then []
    else Ticks(delays, writes, n - 1) + TickEvents(n - 1, delays[n - 1], writes[n - 1])
  }

  /** `fill_first` over a clock trace and the ring's answers. The oracle has an answer
      for every tick the clock trace can produce. */
  function FillFirst(rate: int, duration: int, start: real, readings: seq<real>, writes: seq<WriteOutcome>): (r: Result<seq<Event>>)
    requires |writes| > |readings|
    ensures r.DivisionByZero? <==> rate == 0
    ensures r.Ok? <==> rate != 0
    ensures r.Ok? ==> (Close in r.value <==> Pacer.SleepTimes(rate, duration, start, readings).value.ended)
    ensures r.Ok? ==> forall j :: 0 <= j < |r.value| && r.value[j] == Close ==> j == |r.value| - 1
    ensures r.Ok? ==> forall e :: e in r.value && e.Sleep? ==> e.seconds > 0.0
  {
    match Pacer.SleepTimes(rate, duration, start, readings)
    case Ok(run) =>
      Ok(Ticks(run.delays, writes, |run.delays|) + (if run.ended then [Close] else []))
    case _ => DivisionByZero
  }

  /** The source's rule for which ticks produce an event of kind `k`: every tick attempts
      one write; a zero delay after the first tick is reported as running behind; a
      positive delay is slept; a refused write is reported as pending reader. */
  predicate Due(k: Kind, j: nat, delays: seq<real>, writes: seq<WriteOutcome>)
  {
    match k
    case Attempted => true
    case Behind => 0 < j < |delays| && delays[j] == 0.0
    case Slept => j < |delays| && delays[j] != 0.0
    case Rejected => j < |writes| && writes[j] == WaitingForReader
  }

  /** The ticks of kind `k` in a log of at most one event. */
  lemma TaggedShort(es: seq<Event>, k: Kind)
    requires |es| <= 1
    ensures Tagged(es, k) == if |es| == 1 && Is(es[0], k) then [es[0].tick] else []
  {
  }

  /** The report or sleep before a write is of kind `k` exactly as the rule says. */
  lemma PaceTagged(i: nat, delay: real, k: Kind)
    ensures Tagged(Pace(i, delay), k)
         == if (k == Behind && delay == 0.0 && i > 0) || (k == Slept && delay != 0.0) then [i] else []
  {
  }

  /** The report after a write is a "pending reader" exactly when the ring refused it. */
  lemma ReportTagged(i: nat, outcome: WriteOutcome, k: Kind)
    ensures Tagged(Report(i, outcome), k) == if k == Rejected && outcome == WaitingForReader then [i] else []
  {
  }

  /** A tick's log, projected onto one kind, is the projection of its three parts. */
  lemma TickEventsTagged(i: nat, d: real, w: WriteOutcome, k: Kind)
    ensures Tagged(TickEvents(i, d, w), k)
         == Tagged(Pace(i, d), k) + Tagged([TryWrite(i)], k) + Tagged(Report(i, w), k)
  {
  }

  /** A single tick logs an event of kind `k` exactly when the rule calls for one. */
  lemma TickTagged(i: nat, delays: seq<real>, writes: seq<WriteOutcome>, k: Kind)
    requires i < |delays| && i < |writes|
    ensures Tagged(TickEvents(i, delays[i], writes[i]), k) == if Due(k, i, delays, writes) then [i] else []
  {
    TickEventsTagged(i, delays[i], writes[i], k);
    TaggedShort([TryWrite(i)], k);
    PaceTagged(i, delays[i], k);
    ReportTagged(i, writes[i], k);
  }

  /** The ticks below `n` at which the rule calls for an event of kind `k`, in tick order. */
  function Expected(k: Kind, delays: seq<real>, writes: seq<WriteOutcome>, n: nat): seq<nat>
  {
    if n == 0 then []
    else Expected(k, delays, writes, n - 1) + (if Due(k, n - 1, delays, writes) then [n - 1] else [])
  }

  /** `Expected` enumerates, in increasing order, exactly the ticks the rule names. */
  lemma {:induction false} ExpectedMembers(k: Kind, delays: seq<real>, writes: seq<WriteOutcome>, n: nat)
    ensures Increasing(Expected(k, delays, writes, n))
    ensures forall j: nat :: j in Expected(k, delays, writes, n) <==> j < n && Due(k, j, delays, writes)
  {
    if n > 0 {
      var tail: seq<nat> := if Due(k, n - 1, delays, writes) then [n - 1] else [];
      ExpectedMembers(k, delays, writes, n - 1);
      IncreasingAppend(Expected(k, delays, writes, n - 1), tail, n - 1);
    }
  }

  /** Every tick calls for a write attempt, so the attempted ticks are 0, 1, ..., n-1. */
  lemma {:induction false} ExpectedEveryTick(delays: seq<real>, writes: seq<WriteOutcome>, n: nat)
    ensures |Expected(Attempted, delays, writes, n)| == n
    ensures forall j :: 0 <= j < n ==> Expected(Attempted, delays, writes, n)[j] == j
  {
    if n > 0 {
      ExpectedEveryTick(delays, writes, n - 1);
    }
  }

  /** The log of the first `n` ticks holds, for every kind, exactly the expected ticks. */
  lemma {:induction false} TicksTagged(delays: seq<real>, writes: seq<WriteOutcome>, n: nat, k: Kind)
    requires n <= |delays| && n <= |writes|
    ensures Tagged(Ticks(delays, writes, n), k) == Expected(k, delays, writes, n)
  {
    if n > 0 {
      TicksTagged(delays, writes, n - 1, k);
      TicksTaggedStep(delays, writes, n, k);
    }
  }

  /** One more tick adds at most its own index to the projection. */
  lemma TicksTaggedStep(delays: seq<real>, writes: seq<WriteOutcome>, n: nat, k: Kind)
    requires 0 < n <= |delays| && n <= |writes|
    ensures Tagged(Ticks(delays, writes, n), k)
         == Tagged(Ticks(delays, writes, n - 1), k) + (if Due(k, n - 1, delays, writes) then [n - 1] else [])
  {
    TickTagged(n - 1, delays, writes, k);
    TaggedAppend(Ticks(delays, writes, n - 1), TickEvents(n - 1, delays[n - 1], writes[n - 1]), k,
                 if Due(k, n - 1, delays, writes) then [n - 1] else []);
  }

  /** The log of a run, split into its ticks and the optional final close. */
  lemma FillFirstShape(rate: int, duration: int, start: real, readings: seq<real>, writes: seq<WriteOutcome>, k: Kind)
    requires |writes| > |readings| && rate != 0
    ensures |Pacer.SleepTimes(rate, duration, start, readings).value.delays| <= |writes|
    ensures Tagged(FillFirst(rate, duration, start, readings, writes).value, k)
         == Tagged(Ticks(Pacer.SleepTimes(rate, duration, start, readings).value.delays, writes,
                         |Pacer.SleepTimes(rate, duration, start, readings).value.delays|), k)
  {
    var run := Pacer.SleepTimes(rate, duration, start, readings).value;
    var closing: seq<Event> := if run.ended then [Close] else [];
    TaggedConcat(Ticks(run.delays, writes, |run.delays|), closing, k);
  }

  /** Each kind of event is logged exactly at the ticks the source's rule names, once each
      and in tick order. */
  lemma FillFirstReports(rate: int, duration: int, start: real, readings: seq<real>, writes: seq<WriteOutcome>, k: Kind)
    requires |writes| > |readings| && rate != 0
    ensures Increasing(Tagged(FillFirst(rate, duration, start, readings, writes).value, k))
    ensures forall j: nat :: j in Tagged(FillFirst(rate, duration, start, readings, writes).value, k)
              <==> j < |Pacer.SleepTimes(rate, duration, start, readings).value.delays|
                   && Due(k, j, Pacer.SleepTimes(rate, duration, start, readings).value.delays, writes)
  {
    var run := Pacer.SleepTimes(rate, duration, start, readings).value;
    FillFirstShape(rate, duration, start, readings, writes, k);
    TicksTagged(run.delays, writes, |run.delays|, k);
    ExpectedMembers(k, run.delays, writes, |run.delays|);
  }

  /** Exactly one write attempt per yielded delay, in tick order: a refused write is
      neither retried nor fatal. */
  lemma FillFirstWritesEachTickOnce(rate: int, duration: int, start: real, readings: seq<real>, writes: seq<WriteOutcome>)
    requires |writes| > |readings| && rate != 0
    ensures |Tagged(FillFirst(rate, duration, start, readings, writes).value, Attempted)|
         == |Pacer.SleepTimes(rate, duration, start, readings).value.delays|
    ensures forall j :: 0 <= j < |Pacer.SleepTimes(rate, duration, start, readings).value.delays|
              ==> Tagged(FillFirst(rate, duration, start, readings, writes).value, Attempted)[j] == j
  {
    var run := Pacer.SleepTimes(rate, duration, start, readings).value;
    FillFirstShape(rate, duration, start, readings, writes, Attempted);
    TicksTagged(run.delays, writes, |run.delays|, Attempted);
    ExpectedEveryTick(run.delays, writes, |run.delays|);
  }

  /** "Running behind" is reported for tick `j` exactly when the clock step before it took
      at least the frame duration. */
  lemma FillFirstBehindOnOverrun(rate: int, duration: int, start: real, readings: seq<real>, writes: seq<WriteOutcome>, j: nat)
    requires |writes| > |readings| && rate != 0
    ensures j in Tagged(FillFirst(rate, duration, start, readings, writes).value, Behind)
        <==> 1 <= j < |Pacer.SleepTimes(rate, duration, start, readings).value.delays|
             && readings[j - 1] - Pacer.Previous(start, readings, j - 1) >= Pacer.FrameDuration(rate).value
  {
    var run := Pacer.SleepTimes(rate, duration, start, readings).value;
    FillFirstReports(rate, duration, start, readings, writes, Behind);
    if 1 <= j < |run.delays| {
      Pacer.SleepTimesMeasuresAgainstPreviousReading(rate, duration, start, readings, j);
    }
  }

  /** Where an event falls within its tick: pacing first, then the write, then its report. */
  function Stage(e: Event): nat
    requires !e.Close?
  {
    match e
    case RunningBehind(_) => 0
    case Sleep(_, _) => 0
    case TryWrite(_) => 1
    case PendingReader(_) => 2
  }

  /** The loop performs `x` before `y`: `x` belongs to an earlier tick or to an earlier
      stage of the same tick, or `y` is the final close. */
  predicate Before(x: Event, y: Event)
  {
    !x.Close? && (y.Close? || x.tick < y.tick || (x.tick == y.tick && Stage(x) < Stage(y)))
  }

  /** Every event of `es` comes before every later one, in the loop's order. */
  predicate InLoopOrder(es: seq<Event>)
  {
    forall a, b :: 0 <= a < b < |es| ==> Before(es[a], es[b])
  }

  /** Two logs in loop order, each event of the first before each of the second, join in loop order. */
  lemma InLoopOrderConcat(xs: seq<Event>, ys: seq<Event>)
    requires InLoopOrder(xs) && InLoopOrder(ys)
    requires forall i, j :: 0 <= i < |xs| && 0 <= j < |ys| ==> Before(xs[i], ys[j])
    ensures InLoopOrder(xs + ys)
  {
  }

  /** Within one tick: the running-behind report or the sleep, then the write, then the
      pending-reader report. */
  lemma TickInLoopOrder(i: nat, d: real, w: WriteOutcome)
    ensures InLoopOrder(TickEvents(i, d, w))
    ensures forall e :: e in TickEvents(i, d, w) ==> !e.Close? && e.tick == i
  {
  }

  /** The first `n` ticks log their events in loop order. */
  lemma {:induction false} TicksInLoopOrder(delays: seq<real>, writes: seq<WriteOutcome>, n: nat)
    requires n <= |delays| && n <= |writes|
    ensures InLoopOrder(Ticks(delays, writes, n))
  {
    if n > 0 {
      var earlier := Ticks(delays, writes, n - 1);
      var last := TickEvents(n - 1, delays[n - 1], writes[n - 1]);
      TicksInLoopOrder(delays, writes, n - 1);
      TickInLoopOrder(n - 1, delays[n - 1], writes[n - 1]);
      forall i, j | 0 <= i < |earlier| && 0 <= j < |last|
        ensures Before(earlier[i], last[j])
      {
        var x, y := earlier[i], last[j];
        assert x in earlier && y in last;
        assert !x.Close? && !y.Close? && x.tick < y.tick;
      }
      InLoopOrderConcat(earlier, last);
      assert Ticks(delays, writes, n) == earlier + last;
    }
  }

  /** The log follows the loop: ticks in order; within a tick, pacing, then the write,
      then its report; the close, if any, after everything. */
  lemma FillFirstInLoopOrder(rate: int, duration: int, start: real, readings: seq<real>, writes: seq<WriteOutcome>)
    requires |writes| > |readings| && rate != 0
    ensures InLoopOrder(FillFirst(rate, duration, start, readings, writes).value)
  {
    var run := Pacer.SleepTimes(rate, duration, start, readings).value;
    var ticks := Ticks(run.delays, writes, |run.delays|);
    var closing: seq<Event> := if run.ended then [Close] else [];
    TicksInLoopOrder(run.delays, writes, |run.delays|);
    forall i, j | 0 <= i < |ticks| && 0 <= j < |closing|
      ensures Before(ticks[i], closing[j])
    {
      assert ticks[i] in ticks;
    }
    InLoopOrderConcat(ticks, closing);
  }

  /** The log of `n` ticks is a prefix of the log of `m >= n` ticks. */
  lemma {:induction false} TicksGrow(delays: seq<real>, writes: seq<WriteOutcome>, n: nat, m: nat)
    requires n <= m <= |delays| && m <= |writes|
    ensures Ticks(delays, writes, n) <= Ticks(delays, writes, m)
    decreases m
  {
    if n < m {
      var shorter := Ticks(delays, writes, m - 1);
      TicksGrow(delays, writes, n, m - 1);
      assert Ticks(delays, writes, m) == shorter + TickEvents(m - 1, delays[m - 1], writes[m - 1]);
      assert shorter <= Ticks(delays, writes, m);
    }
  }

  /** Ticks read only their own delays, so a longer delay sequence gives the same first `n` ticks. */
  lemma {:induction false} TicksOnSharedDelays(short: seq<real>, long: seq<real>, writes: seq<WriteOutcome>, n: nat)
    requires short <= long
    requires n <= |short| && n <= |writes|
    ensures Ticks(short, writes, n) == Ticks(long, writes, n)
  {
    if n > 0 {
      TicksOnSharedDelays(short, long, writes, n - 1);
      assert short[n - 1] == long[n - 1];
      assert Ticks(long, writes, n) == Ticks(long, writes, n - 1) + TickEvents(n - 1, long[n - 1], writes[n - 1]);
    }
  }

  /** Watching the clock for longer only extends the log; once the ring is closed the log
      is final. */
  lemma FillFirstIsLazy(rate: int, duration: int, start: real, readings: seq<real>, more: seq<real>, writes: seq<WriteOutcome>)
    requires |writes| > |readings| + |more|
    ensures FillFirst(rate, duration, start, readings, writes).Ok?
        ==> FillFirst(rate, duration, start, readings, writes).value
            <= FillFirst(rate, duration, start, readings + more, writes).value
    ensures FillFirst(rate, duration, start, readings, writes).Ok?
            && Close in FillFirst(rate, duration, start, readings, writes).value
        ==> FillFirst(rate, duration, start, readings + more, writes)
            == FillFirst(rate, duration, start, readings, writes)
  {
    if rate != 0 {
      var short := Pacer.SleepTimes(rate, duration, start, readings).value;
      var long := Pacer.SleepTimes(rate, duration, start, readings + more).value;
      if short.ended {
        Pacer.SleepTimesStopsAtDeadline(rate, duration, start, readings, more);
      } else {
        Pacer.SleepTimesIsLazy(rate, duration, start, readings, more);
        TicksOnSharedDelays(short.delays, long.delays, writes, |short.delays|);
        TicksGrow(long.delays, writes, |short.delays|, |long.delays|);
        var longLog := FillFirst(rate, duration, start, readings + more, writes).value;
        var longTicks := Ticks(long.delays, writes, |long.delays|);
        assert longTicks <= longLog;
      }
    }
  }

  /** With a negative rate on a clock that never runs backwards, the producer never sleeps. */
  lemma FillFirstNeverSleepsOnNegativeRate(rate: int, duration: int, start: real, readings: seq<real>, writes: seq<WriteOutcome>)
    requires |writes| > |readings| && rate < 0
    requires Pacer.ClockMonotone(start, readings)
    ensures forall e :: e in FillFirst(rate, duration, start, readings, writes).value ==> !e.Sleep?
  {
    Pacer.NegativeRateNeverWaits(rate, duration, start, readings);
  }

  /** A backward clock step longer than the negative frame's length makes the producer sleep. */
  lemma BackwardClockSleepsOnNegativeRate()
    ensures Sleep(1, 1.0) in FillFirst(-1, 10, 5.0, [3.0], [Written, Written]).value
  {
  }
}

=== FILE: traces.dfy ===
/** Small vocabulary about finite traces, shared by the pacer, producer and consumer models. */
module Traces {

  /** Index of the first element of `s` that satisfies `p`, or `|s|` when none does. */
  function FirstWhere<T>(s: seq<T>, p: T -> bool): (k: nat)
    ensures k <= |s|
    ensures forall j :: 0 <= j < k ==> !p(s[j])
    ensures k < |s| ==> p(s[k])
    decreases |s|
  {
    if |s| == 0 then 0
    else if p(s[0]) then 0
    else 1 + FirstWhere(s[1..], p)
  }

  /** The elements of `s` are strictly increasing. */
  predicate Increasing(s: seq<nat>)
  {
    forall a, b :: 0 <= a < b < |s| ==> s[a] < s[b]
  }

  /** Appending an element above everything already in an increasing sequence keeps it increasing. */
  lemma IncreasingAppend(s: seq<nat>, tail: seq<nat>, bound: nat)
    requires Increasing(s)
    requires forall x :: x in s ==> x < bound
    requires forall x :: x in tail ==> x == bound
    requires |tail| <= 1
    ensures Increasing(s + tail)
  {
    if |tail| == 0 {
      assert s + tail == s;
    } else {
      forall a, b | 0 <= a < b < |s + tail|
        ensures (s + tail)[a] < (s + tail)[b]
      {
        assert (s + tail)[a] == s[a];
        if b == |s| {
          assert s[a] in s && tail[0] in tail;
        } else {
          assert (s + tail)[b] == s[b];
        }
      }
    }
  }
}
